=== FILE: README.md ===
# Chat widget of the car-dealership insights hub, in Dafny

This project models the one piece of real behaviour in the dashboard's chat
widget (`src/components/chat/ChatWidget.tsx`):

- the conversation state the widget holds, which is the transcript
  `messages`, the text in the input box, the `isLoading` flag and the
  `sessionId` handed out by the agent service;
- `handleSendMessage`, split into pure transitions: `Submit` is the guard
  plus the `user` message and the request, `RecordSuccess` and
  `RecordFailure` are the two ways the request can settle, and `Complete`
  picks one of them and clears loading;
- `sendQuery`'s decision on what the caller sees. The transport is an input:
  what came back over the wire is an `HttpReply`;
- `extractImages`, the global case-insensitive match of
  `/https?:\/\/[^\s]+\.(jpg|jpeg|png|gif|webp)/gi`;
- the records of `src/types/chat.ts`.

Modules, one per file:

| file | module | contents |
|---|---|---|
| `wrappers.dfy` | `Wrappers` | `Option`, for optional properties and `undefined` |
| `js_text.dfy` | `JsText` | JavaScript whitespace, `trim`, ASCII case folding, `Number.prototype.toString` for non-negative integers below 2^53 |
| `chat_types.dfy` | `ChatTypes` | `QueryRequest`, `QueryResponse`, `ChatMessage` |
| `query_client.dfy` | `QueryClient` | `sendQuery` |
| `image_extraction.dfy` | `ImageExtraction` | `extractImages` |
| `chat_widget.dfy` | `ChatWidget` | the state and `handleSendMessage` |
| `chat_trace.dfy` | `ChatTrace` | whole runs of the widget and their invariants |
| `scenarios.dfy` | `ChatScenarios`, `ImageScenarios` | worked examples |

`extractImages` is modelled in two ways, and the two are proved to agree:

- **The engine.** `Scan` follows the regular-expression engine step by step.
  At each start position it tries `https://` before `http://`. It lets
  `[^\s]+` take the whole whitespace-free run, then backs off one character
  at a time until `.` and an extension match. The extensions are tried in
  the pattern's order. The search resumes after each match.
- **The description.** `LeftmostLongest` is the declarative version: the
  longest image URL at the leftmost position where one starts, then the
  same from its end.

The case-insensitive flag folds only ASCII letters for this pattern, and
`\s` is the same whitespace set that `String.prototype.trim` uses.

Runs of the widget are sequences of events: the input is set, a send, or
the outstanding request settles. Over every run, the following hold:

- the transcript alternates `ai` and `user` messages, starting with the
  welcome;
- no `user` message is blank;
- loading is on exactly while a `user` message waits for its answer;
- every request carries the session id of the last successful response.

The records of `src/types/chat.ts` are datatypes whose optional properties
are `Option`s:

- a request's `query` is mandatory and its `sessionId` optional;
- a response always has `response`, `toolsUsed`, `timestamp` and
  `sessionId`;
- a message always has `id`, `type`, `content` and `timestamp`.

The types enforce these facts, so no member states them.

## Model

| member | source | states |
|---|---|---|
| JsText.Trim | src/components/chat/ChatWidget.tsx:58 | `trim` cuts a blank prefix and a blank suffix off the input, and what remains neither starts nor ends with whitespace. It is empty exactly when the input is all whitespace, which is the guard's `!inputValue.trim()` |
| JsText.Decimal | src/components/chat/ChatWidget.tsx:61 | the rendering of a clock reading as a message id is a non-empty numeral of decimal digits without a leading zero |
| JsText.DecimalRoundTrip | src/components/chat/ChatWidget.tsx:44 | reading the rendered number back gives the number, so the status in `HTTP error! status: N` is recoverable and distinct statuses give distinct texts |
| QueryClient.StatusError | src/components/chat/ChatWidget.tsx:43-44 | the error for a non-OK status is `HTTP error! status: ` followed by the status as a plain numeral: the status can be read back from it, and a numeral of more than one digit has no leading zero, so the text is fixed (for 500 it is `HTTP error! status: 500`) |
| QueryClient.SendQuery | src/components/chat/ChatWidget.tsx:34-48 | for a status in 200-299 the caller gets exactly what decoding the body settled as: the response, or the rejection of `response.json()`. A non-OK status becomes an `Error` naming the status, and a rejected `fetch` is passed on as it is |
| QueryClient.Describe | src/components/chat/ChatWidget.tsx:93 | an `Error` is described by its `message`, and any other thrown value by `Unknown error` |
| ImageExtraction.SchemeAt | src/components/chat/ChatWidget.tsx:52 | a scheme the engine finds at a position does occur there, ignoring case |
| ImageExtraction.ExtensionAt | src/components/chat/ChatWidget.tsx:52 | an extension the engine finds at a position does occur there, ignoring case |
| ImageExtraction.RunEnd | src/components/chat/ChatWidget.tsx:52 | `[^\s]+` stops at the end of the text or at a whitespace character |
| ImageExtraction.RunEndNoSpace | src/components/chat/ChatWidget.tsx:52 | everything `[^\s]+` takes is non-whitespace |
| ImageExtraction.LastDotExtension | src/components/chat/ChatWidget.tsx:52 | backing off finds, inside the allowed range, a `.` followed by an extension |
| ImageExtraction.LastDotExtensionFinds | src/components/chat/ChatWidget.tsx:52 | backing off stops at the last `.ext` of the range, never before it |
| ImageExtraction.SchemeUnique | src/components/chat/ChatWidget.tsx:52 | whichever scheme occurs at a position (ignoring case) is the one the engine picks there: `http://` and `https://` never both occur at one position |
| ImageExtraction.ExtensionUnique | src/components/chat/ChatWidget.tsx:52 | whichever extension occurs at a position (ignoring case) is the one the engine picks there, although it tries them in the order `jpg`, `jpeg`, `png`, `gif`, `webp` |
| ImageExtraction.DotExtensionUnique | src/components/chat/ChatWidget.tsx:52 | where a `.` is followed by an extension, the engine picks that extension |
| ImageExtraction.MatchAtIsImageUrl | src/components/chat/ChatWidget.tsx:52 | whatever the engine matches at a position is an image URL: no whitespace, scheme, at least one character, `.`, extension |
| ImageExtraction.MatchAtIsLongest | src/components/chat/ChatWidget.tsx:52 | every image URL starting at a position is found by the engine there, and the engine's match is at least as long |
| ImageExtraction.MatchAtSpec | src/components/chat/ChatWidget.tsx:52 | the engine's match at a position is the longest image URL starting there, and it finds none exactly when none starts there |
| ImageExtraction.Scan | src/components/chat/ChatWidget.tsx:53 | the spans of the global match are non-empty, inside the text, in text order and non-overlapping |
| ImageExtraction.ScanIsLeftmostLongest | src/components/chat/ChatWidget.tsx:52-53 | the global match is a leftmost-longest decomposition of the text |
| ImageExtraction.LeftmostLongestUnique | src/components/chat/ChatWidget.tsx:52-53 | there is only one leftmost-longest decomposition |
| ImageExtraction.ScanCharacterized | src/components/chat/ChatWidget.tsx:52-53 | a list of spans is a leftmost-longest decomposition if and only if it is what the global match returns |
| ImageExtraction.LeftmostLongestSpans | src/components/chat/ChatWidget.tsx:52-53 | every span of a leftmost-longest decomposition delimits an image URL |
| ImageExtraction.LeftmostLongestEmpty | src/components/chat/ChatWidget.tsx:53 | the decomposition is empty exactly when no image URL occurs anywhere in the text, which is when `match` gives `null` and `extractImages` gives `[]` |
| ImageExtraction.ExtractImages | src/components/chat/ChatWidget.tsx:51-54 | every result is an image URL occurring in the text, and the result is `[]` if and only if no substring of the text is an image URL |
| ImageExtraction.ExtractImagesSpans | src/components/chat/ChatWidget.tsx:51-54 | the i-th result is the i-th span of the leftmost-longest decomposition, so the results are in text order and do not overlap |
| ImageScenarios.TrailingPunctuationDropped | src/components/chat/ChatWidget.tsx:52 | in `https://x.co/b.PNG!` the match is `https://x.co/b.PNG`: the `!` is dropped and the extension matches in upper case |
| ChatWidget.Initial | src/components/chat/ChatWidget.tsx:14-25 | the widget starts with one `ai` welcome message: id `1`, the clock reading as its timestamp, an empty tool list, and no images, chart or processing time. The input is empty, nothing is loading and there is no session |
| ChatWidget.Edit | src/components/chat/ChatWidget.tsx:204 | setting the input changes the input and nothing else |
| ChatWidget.Submit | src/components/chat/ChatWidget.tsx:57-69 | no request is made exactly when the input is blank or a request is outstanding, and then the state is unchanged. Otherwise: one `user` message is appended after the unchanged earlier messages. It holds the untrimmed input, has the clock reading as id and timestamp, and has no chart, tools, processing time or images. The request carries that text and the session id held before; the input is cleared and loading starts |
| ChatWidget.RecordSuccess | src/components/chat/ChatWidget.tsx:74-88 | one `ai` message is appended with content, chart, tools and processing time copied from the response. `images` is absent exactly when the text holds no image URL, and otherwise it is the non-empty result of `extractImages` on the text, whose entries are image URLs from the text. The session id becomes the response's and loading ends |
| ChatWidget.FailureText | src/components/chat/ChatWidget.tsx:93 | the error text is the apology, then the error's description, then the advice |
| ChatWidget.RecordFailure | src/components/chat/ChatWidget.tsx:89-98 | one `ai` message is appended whose content is exactly the error text: the apology, the error's message (or `Unknown error`), then the advice. It has no chart, tools, processing time or images. The session id is unchanged and loading ends |
| ChatWidget.Complete | src/components/chat/ChatWidget.tsx:71-99 | a settled request appends one `ai` message after the unchanged transcript and ends loading. The session id changes only on success |
| ChatWidget.HandleSendMessage | src/components/chat/ChatWidget.tsx:57-100 | a blank input or an outstanding request leaves everything as it was. Otherwise the transcript grows by exactly two, the input is cleared and loading has ended, whether the request succeeded or failed |
| ChatWidget.ExchangeTranscript | src/components/chat/ChatWidget.tsx:60-87 | an accepted exchange keeps the earlier transcript, then appends the `user` message with the untrimmed input, then one `ai` message |
| ChatWidget.ExchangeSession | src/components/chat/ChatWidget.tsx:72-88 | the request carries the input and the session id held before the exchange. Afterwards the session id is the one a successful response carried, and is unchanged after a failure |
| ChatWidget.StatusFailureNamesStatus | src/components/chat/ChatWidget.tsx:43-96 | an exchange whose service answers with a non-OK status leaves an `ai` message containing `HTTP error! status: <status>` and the session id unchanged |
| ChatTrace.Step | src/components/chat/ChatWidget.tsx:57-99 | an event can be refused only when a request settles while none is outstanding |
| ChatTrace.SubmitWellFormed | src/components/chat/ChatWidget.tsx:58-69 | a send keeps the transcript's shape: alternating `ai`/`user`, no blank `user` message, loading exactly while an answer is awaited |
| ChatTrace.CompleteWellFormed | src/components/chat/ChatWidget.tsx:71-99 | a settling request keeps the transcript's shape |
| ChatTrace.AppendWellFormed | src/components/chat/ChatWidget.tsx:67-98 | appending one message keeps the shape when it is a `user` message exactly at an odd position, is not blank if it is one, and loading matches the new length |
| ChatTrace.ReplayWellFormed | src/components/chat/ChatWidget.tsx:14-100 | every state a run of the widget reaches has the shape |
| ChatTrace.ReplaySession | src/components/chat/ChatWidget.tsx:72-88 | the session id after a run is the one the last successful response carried, or none before the first success |
| ChatTrace.RequestCarriesLatestSession | src/components/chat/ChatWidget.tsx:72 | a send after any run carries the untrimmed input and the session id of the last successful response |
| ChatScenarios.SuccessScenario | src/components/chat/ChatWidget.tsx:57-99 | asking about sales and getting a 200 answer for session `s1` leaves the welcome, the question and the answer; the session is `s1` and the widget is idle |
| ChatScenarios.FailureScenario | src/components/chat/ChatWidget.tsx:43-96 | sending `x` to a service answering 500 leaves three messages, the last mentioning `500`; there is still no session and the widget is idle |

## Left out

- `fetch`, the JSON encoding of the request and the decoding of the response are not modelled, and neither is the `apiUrl` configuration (`src/pages/Index.tsx` is not part of this model). What came back over the wire is the input `HttpReply`. A body that failed to decode is an `Err` outcome.
- A decoded body is trusted to have the shape of `QueryResponse` in `src/types/chat.ts`, because `response.json()` is never checked against it. The model does not cover a 200 body without a string `response`, where `text.match` throws and the exchange ends with the failure message. It also does not cover a 200 body without `sessionId`, where the session becomes `undefined`.
- JsText.Decimal: renders every natural number as a plain numeral. JavaScript does so only for integers below 10^21, and `Date.now() + 1` is exact only below 2^53. Clock readings and HTTP statuses are far below both bounds, so the model agrees with the code on them.
- `Date.now()` and `new Date()` are a clock parameter. A user message's id is the decimal rendering of the clock at the send, and an answer's id is that of the clock at the settle plus one. Ids are not unique in general, and no member claims they are.
- The code converts `response.timestamp` with `new Date(...)`. The model keeps the string the service sent (`Reported`), because date parsing is not modelled.
- `chartSpec` is `any` in the code and only passed through. It is kept as opaque text.
- `processingTime` is a JavaScript number, kept as a `real`. Floating-point behaviour is not modelled.
- JavaScript strings are sequences of UTF-16 code units, while the model's strings are sequences of Unicode scalar values. The difference matters only for characters outside the Basic Multilingual Plane. None of the pattern's characters or whitespace characters are such characters, so the matches are the same.
- React's state batching and re-rendering are not modelled, and neither are the handler's closure over `inputValue` and `sessionId`. The model reads both from the state at the moment of the send, which is what the closure captured.
- Only one request can be outstanding: the guard refuses a send while loading, and the send button and the textarea are disabled then. Concurrent exchanges are therefore not modelled.
- UI-only state and effects are not modelled: opening and minimizing, auto-scroll, textarea autosize, the suggested prompts (which only set the input, as `Edit` does) and the Enter-key handler (which only calls `handleSendMessage`).
- The presentation components are not part of this model: `MessageBubble.tsx`, `ChartRenderer.tsx`, `DashboardCharts.tsx`, `StatsCard.tsx`, `InventoryTable.tsx`, `DashboardHeader.tsx`.
- The code has no reset or "new conversation" operation, so none is modelled.
- Trailing punctuation after an image URL is never part of a result: for `https://x.co/b.png!` the result is `https://x.co/b.png`, because the pattern must end with the extension (`ImageScenarios.TrailingPunctuationDropped`).

=== FILE: chat_trace.dfy ===
/** Runs of the chat widget: the widget starts in its initial state, and
    the user's edits, the sends and the settling of outstanding requests
    follow one another. A request settles only while one is outstanding.
    Over every run, the transcript alternates between `ai` and `user`
    messages, every `user` message has some non-whitespace text, loading is
    on exactly while a `user` message waits for its answer, and every request
    carries the session id of the last successful response. */
module ChatTrace {
  import opened Wrappers
  import opened JsText
  import opened ChatTypes
  import opened QueryClient
  import opened ChatWidget

  /** What can happen to the widget: the input is set (typing, or a
      suggested prompt), `handleSendMessage` is invoked at a clock reading,
      or the outstanding request settles at a clock reading with what came
      back over the wire. */
  datatype Event =
    | SetInput(value: string)
    | Send(clock: nat)
    | Settle(clock: nat, reply: HttpReply)

  /** The state after one event, or `None` when a request settles while none
      is outstanding. */
  function Step(s: ChatState, e: Event): (r: Option<ChatState>)
    ensures r.None? <==> e.Settle? && !s.isLoading
  {
    match e
    case SetInput(value) => Some(Edit(s, value))
    case Send(clock) => Some(Submit(s, clock).state)
    case Settle(clock, reply) =>
      if s.isLoading then Some(Complete(s, clock, SendQuery(reply))) else None
  }

  /** The state after the events, in order, starting from `start`. */
  function Replay(start: ChatState, events: seq<Event>): Option<ChatState>
    decreases |events|
  {
    if events == [] then Some(start)
    else
      match Replay(start, events[..|events| - 1])
      case None => None
      case Some(s) => Step(s, events[|events| - 1])
  }

  /** The shape every reachable state has: the transcript starts with an
      `ai` message and alternates, so `user` messages sit exactly at the odd
      positions; none of them is blank; and loading is on exactly when the
      last message is a `user` message still waiting for its answer. */
  ghost predicate WellFormed(s: ChatState) {
    && |s.messages| >= 1
    && (forall k | 0 <= k < |s.messages| :: s.messages[k].kind == User <==> k % 2 == 1)
    && (forall k | 0 <= k < |s.messages| && s.messages[k].kind == User :: !IsBlank(s.messages[k].content))
    && (s.isLoading <==> |s.messages| % 2 == 0)
  }

  /** The session id of the last successful response among the events. */
  function LastSession(events: seq<Event>): Option<string>
    decreases |events|
  {
    if events == [] then None
    else
      var e := events[|events| - 1];
      if e.Settle? && SendQuery(e.reply).Ok? then Some(SendQuery(e.reply).response.sessionId)
      else LastSession(events[..|events| - 1])
  }

  lemma InitialWellFormed(now: nat)
    ensures WellFormed(Initial(now))
  {
  }

  /** Appending one message keeps the shape when the message is a `user`
      message exactly at an odd position, is not blank if it is one, and
      loading is on exactly when the transcript then has even length. */
  lemma AppendWellFormed(s: ChatState, t: ChatState)
    requires WellFormed(s)
    requires |t.messages| == |s.messages| + 1 && t.messages[..|s.messages|] == s.messages
    requires t.messages[|s.messages|].kind == User <==> |s.messages| % 2 == 1
    requires t.messages[|s.messages|].kind == User ==> !IsBlank(t.messages[|s.messages|].content)
    requires t.isLoading <==> |t.messages| % 2 == 0
    ensures WellFormed(t)
  {
    forall k | 0 <= k < |s.messages| ensures t.messages[k] == s.messages[k] {
      assert t.messages[k] == t.messages[..|s.messages|][k];
    }
  }

  /** A send keeps the shape: when accepted, the `user` message it appends
      lands at an odd position, is not blank, and starts the wait. */
  lemma SubmitWellFormed(s: ChatState, clock: nat)
    requires WellFormed(s)
    ensures WellFormed(Submit(s, clock).state)
  {
    var r := Submit(s, clock);
    if r.request.Some? {
      AppendWellFormed(s, r.state);
    }
  }

  /** Appending an `ai` message while loading, and ending the wait, keeps
      the shape. */
  lemma AnswerWellFormed(s: ChatState, t: ChatState)
    requires WellFormed(s) && s.isLoading
    requires |t.messages| == |s.messages| + 1 && t.messages[..|s.messages|] == s.messages
    requires t.messages[|s.messages|].kind == Ai
    requires !t.isLoading
    ensures WellFormed(t)
  {
    AppendWellFormed(s, t);
  }

  /** Settling keeps the shape: the `ai` message it appends lands at an even
      position and ends the wait. */
  lemma CompleteWellFormed(s: ChatState, clock: nat, outcome: Outcome)
    requires WellFormed(s) && s.isLoading
    ensures WellFormed(Complete(s, clock, outcome))
  {
    AnswerWellFormed(s, Complete(s, clock, outcome));
  }

  /** Every event keeps the shape. */
  lemma StepWellFormed(s: ChatState, e: Event)
    requires WellFormed(s) && Step(s, e).Some?
    ensures WellFormed(Step(s, e).value)
  {
    match e
    case SetInput(value) =>
    case Send(clock) => SubmitWellFormed(s, clock);
    case Settle(clock, reply) => CompleteWellFormed(s, clock, SendQuery(reply));
  }

  /** Every state a run reaches has the shape. */
  lemma {:induction false} ReplayWellFormed(now: nat, events: seq<Event>)
    requires Replay(Initial(now), events).Some?
    ensures WellFormed(Replay(Initial(now), events).value)
    decreases |events|
  {
    if events == [] {
      InitialWellFormed(now);
    } else {
      var prefix := events[..|events| - 1];
      ReplayWellFormed(now, prefix);
      StepWellFormed(Replay(Initial(now), prefix).value, events[|events| - 1]);
    }
  }

  /** The session id a run ends with is the one the last successful
      response carried, or none when no request has succeeded yet. */
  lemma {:induction false} ReplaySession(now: nat, events: seq<Event>)
    requires Replay(Initial(now), events).Some?
    ensures Replay(Initial(now), events).value.sessionId == LastSession(events)
    decreases |events|
  {
    if events != [] {
      ReplaySession(now, events[..|events| - 1]);
    }
  }

  /** A send after any run carries the untrimmed input and the session id
      of the last successful response (none before the first one). */
  lemma RequestCarriesLatestSession(now: nat, events: seq<Event>, clock: nat)
    requires Replay(Initial(now), events).Some?
    ensures var s := Replay(Initial(now), events).value;
            Submit(s, clock).request.Some? ==>
              Submit(s, clock).request.value == QueryRequest(s.inputValue, LastSession(events))
  {
    ReplaySession(now, events);
  }
}

=== FILE: chat_types.dfy ===
/** The records exchanged by the chat widget: the request body sent to the
    agent service, the response it returns, and an entry of the transcript. */
module ChatTypes {
  import opened Wrappers

  /** A message's `type`: it is exactly one of `'user'` and `'ai'`. */
  datatype MessageType = User | Ai

  /** The chart specification is untyped (`any`) in the code and only passed
      through; it is kept as the JSON text the service sent. */
  datatype ChartSpec = ChartSpec(json: string)

  /** A message timestamp: either a clock reading in milliseconds (`new
      Date()`), or the date the service reported, kept as the string it was
      parsed from (`new Date(response.timestamp)`). */
  datatype Timestamp = ClockTime(millis: nat) | Reported(text: string)

  /** Request body: the query is mandatory, the session id optional. */
  datatype QueryRequest = QueryRequest(query: string, sessionId: Option<string>)

  /** Response body: `toolsUsed` (possibly empty), `timestamp` and
      `sessionId` are always present; `chartSpec` and `processingTime` may be
      absent. A JavaScript number is kept as a `real`. */
  datatype QueryResponse = QueryResponse(
    query: string,
    response: string,
    toolsUsed: seq<string>,
    chartSpec: Option<ChartSpec>,
    timestamp: string,
    processingTime: Option<real>,
    sessionId: string)

  /** A transcript entry: `id`, `type`, `content` and `timestamp` are always
      present, the rest is optional. */
  datatype ChatMessage = ChatMessage(
    id: string,
    kind: MessageType,
    content: string,
    timestamp: Timestamp,
    chartSpec: Option<ChartSpec>,
    toolsUsed: Option<seq<string>>,
    processingTime: Option<real>,
    images: Option<seq<string>>)
}

=== FILE: chat_widget.dfy ===
/** The conversation state of the chat widget and the exchange performed by
    `handleSendMessage`. The asynchronous handler is split into pure
    transitions: `Submit` (the guard, then the user message and the request),
    and `Complete`, which records the settled request as either
    `RecordSuccess` or `RecordFailure` and clears the loading flag. The clock
    (`Date.now()`) is a parameter, and the service is a function from the
    request to what came back over the wire. */
module ChatWidget {
  import opened Wrappers
  import opened JsText
  import opened ChatTypes
  import opened QueryClient
  import opened ImageExtraction

  /** The transcript, the text in the input box, whether a request is
      outstanding, and the session id the service handed out last. */
  datatype ChatState = ChatState(
    messages: seq<ChatMessage>,
    inputValue: string,
    isLoading: bool,
    sessionId: Option<string>)

  const WelcomeText: string :=
    "Hello! Welcome to the AI Car Dealership Assistant \U{1F697}\n\n"
    + "I can help you with:\n\U{2022} Inventory management\n\U{2022} Sales analytics\n"
    + "\U{2022} Customer insights\n\U{2022} Financial reports\n\n"
    + "What would you like to explore today?"

  /** The state the widget starts in, at clock reading `now`: one `ai`
      welcome message with an empty tool list, an empty input, nothing
      loading and no session. */
  function Initial(now: nat): (s: ChatState)
    ensures |s.messages| == 1 && s.messages[0].kind == Ai
    ensures s.messages[0].content == WelcomeText && s.messages[0].toolsUsed == Some([])
    ensures s.messages[0].images.None? && s.messages[0].chartSpec.None? && s.messages[0].processingTime.None?
    ensures s.messages[0].id == "1" && s.messages[0].timestamp == ClockTime(now)
    ensures s.inputValue == [] && !s.isLoading && s.sessionId.None?
  {
    var welcome := ChatMessage("1", Ai, WelcomeText, ClockTime(now), None, Some([]), None, None);
    ChatState([welcome], [], false, None)
  }

  /** `setInputValue`: typing into the box or picking a suggested prompt
      replaces the input and nothing else. */
  function Edit(s: ChatState, value: string): (t: ChatState)
    ensures t.inputValue == value
    ensures t.messages == s.messages && t.isLoading == s.isLoading && t.sessionId == s.sessionId
  {
    s.(inputValue := value)
  }

  /** The guard of `handleSendMessage`: the trimmed input is not empty and no
      request is outstanding. */
  predicate CanSend(s: ChatState) {
    Trim(s.inputValue) != [] && !s.isLoading
  }

  /** The state after the synchronous part of `handleSendMessage`, and the
      request it sends, if any. */
  datatype Submitted = Submitted(state: ChatState, request: Option<QueryRequest>)

  /** The synchronous part of `handleSendMessage` at clock reading `now`:
      nothing at all happens when the input is blank or a request is
      outstanding; otherwise the untrimmed input is appended as a `user`
      message and sent, together with the session id held so far, the input
      is cleared and loading starts. */
  function Submit(s: ChatState, now: nat): (r: Submitted)
    ensures r.request.None? <==> IsBlank(s.inputValue) || s.isLoading
    ensures r.request.None? ==> r.state == s
    ensures r.request.Some? ==>
              && |r.state.messages| == |s.messages| + 1
              && r.state.messages[..|s.messages|] == s.messages
              && r.state.messages[|s.messages|].kind == User
              && r.state.messages[|s.messages|].content == s.inputValue
              && r.state.messages[|s.messages|].id == Decimal(now)
              && r.state.messages[|s.messages|].timestamp == ClockTime(now)
              && r.state.messages[|s.messages|].chartSpec.None?
              && r.state.messages[|s.messages|].toolsUsed.None?
              && r.state.messages[|s.messages|].processingTime.None?
              && r.state.messages[|s.messages|].images.None?
              && r.request.value == QueryRequest(r.state.messages[|s.messages|].content, s.sessionId)
              && r.state.inputValue == [] && r.state.isLoading && r.state.sessionId == s.sessionId
  {
    if !CanSend(s) then Submitted(s, None)
    else
      var user := ChatMessage(Decimal(now), User, s.inputValue, ClockTime(now), None, None, None, None);
      Submitted(ChatState(s.messages + [user], [], true, s.sessionId), Some(QueryRequest(s.inputValue, s.sessionId)))
  }

  /** The successful branch of `handleSendMessage`, at clock reading `now`:
      the response becomes one `ai` message that carries its text, chart,
      tools and processing time, and the image URLs found in its text (none
      when there are none); the response's session id is kept for the next
      request, and loading ends. */
  function RecordSuccess(s: ChatState, now: nat, resp: QueryResponse): (t: ChatState)
    ensures |t.messages| == |s.messages| + 1 && t.messages[..|s.messages|] == s.messages
    ensures t.messages[|s.messages|].kind == Ai
    ensures t.messages[|s.messages|].id == Decimal(now + 1)
    ensures t.messages[|s.messages|].content == resp.response
    ensures t.messages[|s.messages|].timestamp == Reported(resp.timestamp)
    ensures t.messages[|s.messages|].chartSpec == resp.chartSpec
    ensures t.messages[|s.messages|].toolsUsed == Some(resp.toolsUsed)
    ensures t.messages[|s.messages|].processingTime == resp.processingTime
    ensures t.messages[|s.messages|].images.None? <==>
              forall j, e | 0 <= j <= e <= |resp.response| :: !IsImageUrl(resp.response[j..e])
    ensures t.messages[|s.messages|].images.Some? ==>
              t.messages[|s.messages|].images.value == ExtractImages(resp.response)
    ensures t.messages[|s.messages|].images.Some? ==>
              |t.messages[|s.messages|].images.value| > 0
              && forall k | 0 <= k < |t.messages[|s.messages|].images.value| ::
                   IsImageUrl(t.messages[|s.messages|].images.value[k])
                   && Contains(resp.response, t.messages[|s.messages|].images.value[k])
    ensures t.sessionId == Some(resp.sessionId)
    ensures !t.isLoading && t.inputValue == s.inputValue
  {
    var images := ExtractImages(resp.response);
    var ai := ChatMessage(Decimal(now + 1), Ai, resp.response, Reported(resp.timestamp),
                          resp.chartSpec, Some(resp.toolsUsed), resp.processingTime,
                          if |images| > 0 then Some(images) else None);
    ChatState(s.messages + [ai], s.inputValue, false, Some(resp.sessionId))
  }

  const FailurePrefix: string := "Sorry, there was an error connecting to the service: "
  const FailureAdvice: string :=
    "\n\nPlease check:\n\U{2022} API URL is correct\n\U{2022} Backend server is running\n\U{2022} Network connection"

  /** The text of the error message shown for a caught error described by
      `detail`: the apology, the detail, then the advice. */
  function FailureText(detail: string): (text: string)
    ensures OccursAt(text, FailurePrefix, 0)
    ensures OccursAt(text, detail, |FailurePrefix|)
    ensures OccursAt(text, FailureAdvice, |FailurePrefix| + |detail|)
    ensures |text| == |FailurePrefix| + |detail| + |FailureAdvice|
  {
    var text := FailurePrefix + detail + FailureAdvice;
    assert text[..|FailurePrefix|] == FailurePrefix;
    assert text[|FailurePrefix|..|FailurePrefix| + |detail|] == detail;
    assert text[|FailurePrefix| + |detail|..] == FailureAdvice;
    text
  }

  /** The error branch of `handleSendMessage`, at clock reading `now`: one
      `ai` message whose text contains the description of what was thrown;
      the session id stays as it was, and loading ends. */
  function RecordFailure(s: ChatState, now: nat, thrown: Thrown): (t: ChatState)
    ensures |t.messages| == |s.messages| + 1 && t.messages[..|s.messages|] == s.messages
    ensures t.messages[|s.messages|].kind == Ai
    ensures t.messages[|s.messages|].id == Decimal(now + 1)
    ensures t.messages[|s.messages|].timestamp == ClockTime(now)
    ensures t.messages[|s.messages|].content == FailureText(Describe(thrown))
    ensures Contains(t.messages[|s.messages|].content, Describe(thrown))
    ensures thrown.ErrorObject? ==> Contains(t.messages[|s.messages|].content, thrown.message)
    ensures t.messages[|s.messages|].chartSpec.None? && t.messages[|s.messages|].toolsUsed.None?
    ensures t.messages[|s.messages|].images.None? && t.messages[|s.messages|].processingTime.None?
    ensures t.sessionId == s.sessionId
    ensures !t.isLoading && t.inputValue == s.inputValue
  {
    var text := FailureText(Describe(thrown));
    var ai := ChatMessage(Decimal(now + 1), Ai, text, ClockTime(now), None, None, None, None);
    ChatState(s.messages + [ai], s.inputValue, false, s.sessionId)
  }

  /** The asynchronous part of `handleSendMessage` once the request settled,
      at clock reading `now`: a response is recorded, anything thrown is
      reported; either way loading ends. */
  function Complete(s: ChatState, now: nat, outcome: Outcome): (t: ChatState)
    ensures |t.messages| == |s.messages| + 1 && t.messages[..|s.messages|] == s.messages
    ensures t.messages[|s.messages|].kind == Ai
    ensures !t.isLoading && t.inputValue == s.inputValue
    ensures t.sessionId == (if outcome.Ok? then Some(outcome.response.sessionId) else s.sessionId)
  {
    match outcome
    case Ok(resp) => RecordSuccess(s, now, resp)
    case Err(thrown) => RecordFailure(s, now, thrown)
  }

  /** One run of `handleSendMessage`: submitted at clock reading `sent`,
      settled at `settled`, against a service that answers a request with
      `service(request)`. A blank input or an outstanding request leaves the
      state untouched; otherwise the transcript grows by exactly two
      messages, the input is cleared and loading has ended. */
  function HandleSendMessage(s: ChatState, sent: nat, settled: nat, service: QueryRequest -> HttpReply): (t: ChatState)
    ensures IsBlank(s.inputValue) || s.isLoading ==> t == s
    ensures !IsBlank(s.inputValue) && !s.isLoading ==>
              |t.messages| == |s.messages| + 2 && t.inputValue == [] && !t.isLoading
  {
    var sub := Submit(s, sent);
    if sub.request.None? then s
    else Complete(sub.state, settled, SendQuery(service(sub.request.value)))
  }

  /** An accepted exchange keeps the earlier transcript and appends the
      `user` message with the untrimmed input, then one `ai` message. */
  lemma ExchangeTranscript(s: ChatState, sent: nat, settled: nat, service: QueryRequest -> HttpReply)
    requires !IsBlank(s.inputValue) && !s.isLoading
    ensures var t := HandleSendMessage(s, sent, settled, service);
            && |t.messages| == |s.messages| + 2
            && t.messages[..|s.messages|] == s.messages
            && t.messages[|s.messages|].kind == User
            && t.messages[|s.messages|].content == s.inputValue
            && t.messages[|s.messages| + 1].kind == Ai
  {
    var sub := Submit(s, sent);
    var t := Complete(sub.state, settled, SendQuery(service(sub.request.value)));
    AppendedTwice(s.messages, sub.state.messages, t.messages);
  }

  /** Two single appends make one append of two messages. */
  lemma AppendedTwice(a: seq<ChatMessage>, b: seq<ChatMessage>, c: seq<ChatMessage>)
    requires |b| == |a| + 1 && b[..|a|] == a
    requires |c| == |b| + 1 && c[..|b|] == b
    ensures |c| == |a| + 2 && c[..|a|] == a && c[|a|] == b[|a|]
  {
    assert c[..|a|] == c[..|b|][..|a|];
  }

  /** The request of an accepted exchange carries the input and the session
      id held before it; afterwards the session id is the one a successful
      response carried, and unchanged when the request failed. */
  lemma ExchangeSession(s: ChatState, sent: nat, settled: nat, service: QueryRequest -> HttpReply)
    requires !IsBlank(s.inputValue) && !s.isLoading
    ensures Submit(s, sent).request == Some(QueryRequest(s.inputValue, s.sessionId))
    ensures var outcome := SendQuery(service(QueryRequest(s.inputValue, s.sessionId)));
            HandleSendMessage(s, sent, settled, service).sessionId
              == (if outcome.Ok? then Some(outcome.response.sessionId) else s.sessionId)
  {
  }

  /** An exchange that fails with a non-OK status leaves an `ai` message
      that names the status: it contains `HTTP error! status: <status>`, and
      the session id stays as it was. */
  lemma StatusFailureNamesStatus(s: ChatState, sent: nat, settled: nat, service: QueryRequest -> HttpReply, status: nat)
    requires !IsBlank(s.inputValue) && !s.isLoading
    requires service(QueryRequest(s.inputValue, s.sessionId)).Received?
    requires service(QueryRequest(s.inputValue, s.sessionId)).status == status && !IsOkStatus(status)
    ensures var t := HandleSendMessage(s, sent, settled, service);
            && |t.messages| == |s.messages| + 2
            && Contains(t.messages[|s.messages| + 1].content, StatusError(status))
            && t.sessionId == s.sessionId
  {
    var sub := Submit(s, sent);
    var thrown := ErrorObject(StatusError(status));
    assert SendQuery(service(sub.request.value)) == Err(thrown);
    var t := RecordFailure(sub.state, settled, thrown);
    assert |sub.state.messages| == |s.messages| + 1;
    assert HandleSendMessage(s, sent, settled, service) == t;
  }
}

=== FILE: image_extraction.dfy ===
/** `extractImages`: all matches of the global, case-insensitive pattern
    `https?://[^\s]+\.(jpg|jpeg|png|gif|webp)` in a response text, as
    `String.prototype.match` returns them (or `[]` when there is none).

    The scanner follows the regular-expression engine step by step: at each
    start position it tries the scheme (with the optional `s` tried first),
    lets `[^\s]+` take the whole whitespace-free run, and backs off one
    character at a time until a `.` followed by an extension is found, trying
    the extensions in the pattern's order. A match ends right after the
    extension; the search then resumes after the match. Alongside it stands a
    declarative description (the leftmost-longest image URLs), and the two are
    proved to agree. */
module ImageExtraction {
  import opened Wrappers
  import opened JsText

  /** The alternatives of `https?://`. */
  datatype Scheme = Http | Https {
    function Word(): string {
      match this
      case Http => "http://"
      case Https => "https://"
    }
  }

  /** The alternatives of `(jpg|jpeg|png|gif|webp)`, in the pattern's order. */
  datatype Extension = Jpg | Jpeg | Png | Gif | Webp {
    function Word(): string {
      match this
      case Jpg => "jpg"
      case Jpeg => "jpeg"
      case Png => "png"
      case Gif => "gif"
      case Webp => "webp"
    }
  }

  /** `w` occurs in `text` at index `i`, ignoring ASCII case. */
  predicate CiAt(text: string, i: nat, w: string) {
    i + |w| <= |text| && CiFrom(text, i, w, 0)
  }

  /** The characters of `w` from index `k` on match those of `text` from
      `i + k` on, ignoring ASCII case. */
  predicate CiFrom(text: string, i: nat, w: string, k: nat)
    requires i + |w| <= |text|
    decreases |w| - k
  {
    k >= |w| || (CiEq(text[i + k], w[k]) && CiFrom(text, i, w, k + 1))
  }

  // ---------------------------------------------------------------------------
  // What an image URL is
  // ---------------------------------------------------------------------------

  /** `u` reads `<scheme><one or more characters>.<ext>`, ignoring ASCII case. */
  ghost predicate HasShape(u: string, s: Scheme, x: Extension) {
    && |s.Word()| + 2 + |x.Word()| <= |u|
    && CiAt(u, 0, s.Word())
    && u[|u| - |x.Word()| - 1] == '.'
    && CiAt(u, |u| - |x.Word()|, x.Word())
  }

  /** A string the pattern matches as a whole: whitespace-free, starting with
      `http://` or `https://` and ending with `.jpg`, `.jpeg`, `.png`, `.gif`
      or `.webp` (in any case), with at least one character between the two. */
  ghost predicate IsImageUrl(u: string) {
    NoSpace(u) && exists s, x :: HasShape(u, s, x)
  }

  /** No image URL starts at index `j` of `text`. */
  ghost predicate NoUrlAt(text: string, j: nat) {
    forall e | j <= e <= |text| :: !IsImageUrl(text[j..e])
  }

  /** A stretch `text[start..end]` of the text. */
  datatype Span = Span(start: nat, end: nat)

  /** `sp` is an image URL, and no longer image URL starts where it starts. */
  ghost predicate LongestAt(text: string, sp: Span) {
    && sp.start <= sp.end <= |text|
    && IsImageUrl(text[sp.start..sp.end])
    && forall e | sp.start <= e <= |text| && IsImageUrl(text[sp.start..e]) :: e <= sp.end
  }

  /** `spans` is what a global match finds from index `i` on: the first span
      is the longest image URL at the first position from `i` where one
      starts, and the rest is found the same way from the end of that span;
      when none is left, no image URL starts anywhere from `i` on. */
  ghost predicate LeftmostLongest(text: string, i: nat, spans: seq<Span>)
    decreases |spans|
  {
    && i <= |text|
    && if spans == [] then
         forall j | i <= j < |text| :: NoUrlAt(text, j)
       else
         && i <= spans[0].start
         && (forall j | i <= j < spans[0].start :: NoUrlAt(text, j))
         && LongestAt(text, spans[0])
         && LeftmostLongest(text, spans[0].end, spans[1..])
  }

  // ---------------------------------------------------------------------------
  // The engine's steps
  // ---------------------------------------------------------------------------

  /** The alternative of `https?://` that matches at `i`: the greedy `s?`
      makes the engine try `https://` before `http://`. */
  function SchemeAt(text: string, i: nat): (s: Option<Scheme>)
    ensures s.Some? ==> CiAt(text, i, s.value.Word())
  {
    if CiAt(text, i, Https.Word()) then Some(Https)
    else if CiAt(text, i, Http.Word()) then Some(Http)
    else None
  }

  /** The first alternative of `(jpg|jpeg|png|gif|webp)` that matches at `i`. */
  function ExtensionAt(text: string, i: nat): (x: Option<Extension>)
    ensures x.Some? ==> CiAt(text, i, x.value.Word())
  {
    if CiAt(text, i, Jpg.Word()) then Some(Jpg)
    else if CiAt(text, i, Jpeg.Word()) then Some(Jpeg)
    else if CiAt(text, i, Png.Word()) then Some(Png)
    else if CiAt(text, i, Gif.Word()) then Some(Gif)
    else if CiAt(text, i, Webp.Word()) then Some(Webp)
    else None
  }

  /** `\.` followed by an extension at index `q`. */
  function DotExtensionAt(text: string, q: nat): (x: Option<Extension>)
    ensures x.Some? ==> q < |text| && text[q] == '.' && CiAt(text, q + 1, x.value.Word())
  {
    if q < |text| && text[q] == '.' then ExtensionAt(text, q + 1) else None
  }

  /** Where the whitespace-free run starting at `p` ends: what `[^\s]+`
      consumes before backing off. */
  function RunEnd(text: string, p: nat): (e: nat)
    requires p <= |text|
    ensures p <= e <= |text|
    ensures e == |text| || IsSpace(text[e])
    decreases |text| - p
  {
    if p == |text| || IsSpace(text[p]) then p else RunEnd(text, p + 1)
  }

  /** Backtracking of `[^\s]+`: the last index in `[lo, hi)` where `\.` and an
      extension match, trying the indices from `hi - 1` downwards. */
  function LastDotExtension(text: string, lo: nat, hi: nat): (q: Option<nat>)
    ensures q.Some? ==> lo <= q.value < hi && DotExtensionAt(text, q.value).Some?
    decreases hi
  {
    if hi <= lo then None
    else if DotExtensionAt(text, hi - 1).Some? then Some(hi - 1)
    else LastDotExtension(text, lo, hi - 1)
  }

  /** The end of the match the engine finds when it starts at `i`, if any. */
  function MatchAt(text: string, i: nat): (m: Option<nat>)
    requires i <= |text|
    ensures m.Some? ==> i < m.value <= |text|
  {
    var s := SchemeAt(text, i);
    if s.None? then None else MatchAfterScheme(text, i + |s.value.Word()|)
  }

  /** The rest of the match once the scheme has matched up to `p`:
      `[^\s]+` may take 1 to `n` characters, where `p + n` is the end of the
      run, so `\.` is tried at `p + n` down to `p + 1`. */
  function MatchAfterScheme(text: string, p: nat): (m: Option<nat>)
    requires p <= |text|
    ensures m.Some? ==> p < m.value <= |text|
  {
    var q := LastDotExtension(text, p + 1, RunEnd(text, p) + 1);
    if q.None? then None else Some(q.value + 1 + |DotExtensionAt(text, q.value).value.Word()|)
  }

  /** The global match from index `i` on: try each start position in turn;
      after a match, continue at its end. */
  function Scan(text: string, i: nat): (spans: seq<Span>)
    requires i <= |text|
    ensures forall k | 0 <= k < |spans| :: i <= spans[k].start < spans[k].end <= |text|
    ensures forall k | 0 <= k < |spans| - 1 :: spans[k].end <= spans[k + 1].start
    decreases |text| - i
  {
    if i == |text| then []
    else
      match MatchAt(text, i)
      case Some(e) => [Span(i, e)] + Scan(text, e)
      case None => Scan(text, i + 1)
  }

  /** `extractImages`: the matched substrings, in text order; `[]` when the
      pattern matches nowhere. */
  function ExtractImages(text: string): (images: seq<string>)
    ensures forall k | 0 <= k < |images| :: IsImageUrl(images[k]) && Contains(text, images[k])
    ensures images == [] <==> forall j, e | 0 <= j <= e <= |text| :: !IsImageUrl(text[j..e])
  {
    var spans := Scan(text, 0);
    ScanIsLeftmostLongest(text, 0);
    LeftmostLongestSpans(text, 0, spans);
    LeftmostLongestEmpty(text, 0, spans);
    SubstringsOccur(text, spans);
    Substrings(text, spans)
  }

  /** The substrings of `text` the spans delimit. */
  function Substrings(text: string, spans: seq<Span>): (subs: seq<string>)
    requires forall k | 0 <= k < |spans| :: spans[k].start <= spans[k].end <= |text|
    ensures |subs| == |spans|
    ensures forall k | 0 <= k < |spans| :: subs[k] == text[spans[k].start..spans[k].end]
  {
    seq(|spans|, k requires 0 <= k < |spans| => text[spans[k].start..spans[k].end])
  }

  // ---------------------------------------------------------------------------
  // Facts about the alternatives
  // ---------------------------------------------------------------------------

  /** The characters of the pattern's words: lower-case letters, `:` and `/`. */
  predicate PatternChar(c: char) {
    'a' <= c <= 'z' || c == ':' || c == '/'
  }

  lemma SchemeChars(s: Scheme)
    ensures forall k | 0 <= k < |s.Word()| :: PatternChar(s.Word()[k])
  {
  }

  lemma ExtensionChars(x: Extension)
    ensures forall k | 0 <= k < |x.Word()| :: PatternChar(x.Word()[k])
  {
  }

  /** A character matched against a pattern character is neither whitespace
      nor a dot. */
  lemma MatchedCharNotSpace(text: string, i: nat, w: string, j: nat)
    requires CiAt(text, i, w) && i <= j < i + |w| && PatternChar(w[j - i])
    ensures !IsSpace(text[j]) && text[j] != '.'
  {
    CiAtIndex(text, i, w, j - i);
  }

  /** Each character of an occurrence matches the word's character. */
  lemma CiAtIndex(text: string, i: nat, w: string, k: nat)
    requires CiAt(text, i, w) && k < |w|
    ensures CiEq(text[i + k], w[k])
  {
    CiFromIndex(text, i, w, 0, k);
  }

  /** One mismatching character rules an occurrence out. */
  lemma CiAtNotAt(text: string, i: nat, w: string, k: nat)
    requires k < |w| && i + k < |text| && !CiEq(text[i + k], w[k])
    ensures !CiAt(text, i, w)
  {
    if CiAt(text, i, w) {
      CiAtIndex(text, i, w, k);
    }
  }

  lemma {:induction false} CiFromIndex(text: string, i: nat, w: string, k: nat, n: nat)
    requires i + |w| <= |text| && CiFrom(text, i, w, k) && k <= n < |w|
    ensures CiEq(text[i + n], w[n])
    decreases n - k
  {
    if k < n {
      CiFromIndex(text, i, w, k + 1, n);
    }
  }

  /** Only one scheme can match at a position. */
  lemma SchemeUnique(text: string, i: nat, s: Scheme)
    requires CiAt(text, i, s.Word())
    ensures SchemeAt(text, i) == Some(s)
  {
    if s == Http {
      CiAtIndex(text, i, Http.Word(), 4);
      CiAtNotAt(text, i, Https.Word(), 4);
    }
  }

  /** A word starting with a different letter does not occur where `w` does. */
  lemma FirstLetterDiffers(text: string, i: nat, w: string, v: string)
    requires CiAt(text, i, w) && 0 < |w| && 0 < |v|
    requires 'a' <= w[0] <= 'z' && 'a' <= v[0] <= 'z' && w[0] != v[0]
    ensures !CiAt(text, i, v)
  {
    CiAtIndex(text, i, w, 0);
    CiAtNotAt(text, i, v, 0);
  }

  /** Only one extension can match at a position. */
  lemma ExtensionUnique(text: string, i: nat, x: Extension)
    requires CiAt(text, i, x.Word())
    ensures ExtensionAt(text, i) == Some(x)
  {
    match x
    case Jpg =>
    case Jpeg =>
      CiAtIndex(text, i, Jpeg.Word(), 2);
      CiAtNotAt(text, i, Jpg.Word(), 2);
    case Png =>
      FirstLetterDiffers(text, i, x.Word(), Jpg.Word());
      FirstLetterDiffers(text, i, x.Word(), Jpeg.Word());
    case Gif =>
      FirstLetterDiffers(text, i, x.Word(), Jpg.Word());
      FirstLetterDiffers(text, i, x.Word(), Jpeg.Word());
      FirstLetterDiffers(text, i, x.Word(), Png.Word());
    case Webp =>
      FirstLetterDiffers(text, i, x.Word(), Jpg.Word());
      FirstLetterDiffers(text, i, x.Word(), Jpeg.Word());
      FirstLetterDiffers(text, i, x.Word(), Png.Word());
      FirstLetterDiffers(text, i, x.Word(), Gif.Word());
  }

  /** `\.` and an extension match at `q` only in one way. */
  lemma DotExtensionUnique(text: string, q: nat, x: Extension)
    requires q < |text| && text[q] == '.' && CiAt(text, q + 1, x.Word())
    ensures DotExtensionAt(text, q) == Some(x)
  {
    ExtensionUnique(text, q + 1, x);
  }

  // ---------------------------------------------------------------------------
  // Index bookkeeping
  // ---------------------------------------------------------------------------

  /** A case-insensitive occurrence inside `text[i..m]` is one in `text`,
      shifted by `i`, and the other way round. */
  lemma CiAtSlice(text: string, i: nat, m: nat, j: nat, w: string)
    requires i <= j && j + |w| <= m <= |text|
    ensures CiAt(text[i..m], j - i, w) <==> CiAt(text, j, w)
  {
    CiFromSlice(text, i, m, j, w, 0);
  }

  lemma {:induction false} CiFromSlice(text: string, i: nat, m: nat, j: nat, w: string, k: nat)
    requires i <= j && j + |w| <= m <= |text|
    ensures CiFrom(text[i..m], j - i, w, k) <==> CiFrom(text, j, w, k)
    decreases |w| - k
  {
    if k < |w| {
      assert text[i..m][j - i + k] == text[j + k];
      CiFromSlice(text, i, m, j, w, k + 1);
    }
  }

  /** A slice is whitespace-free exactly when the indices it covers are. */
  lemma NoSpaceSlice(text: string, i: nat, m: nat)
    requires i <= m <= |text|
    ensures NoSpace(text[i..m]) <==> forall j | i <= j < m :: !IsSpace(text[j])
  {
    if NoSpace(text[i..m]) {
      forall j | i <= j < m ensures !IsSpace(text[j]) {
        assert text[i..m][j - i] == text[j];
      }
    }
  }

  /** `text[i..m]` has the shape of an image URL when the scheme occurs at
      `i`, the extension at the end and a dot right before it. */
  lemma ShapeOfSlice(text: string, i: nat, m: nat, s: Scheme, x: Extension)
    requires i + |s.Word()| + 2 + |x.Word()| <= m <= |text|
    requires CiAt(text, i, s.Word())
    requires text[m - |x.Word()| - 1] == '.' && CiAt(text, m - |x.Word()|, x.Word())
    ensures HasShape(text[i..m], s, x)
  {
    CiAtSlice(text, i, m, i, s.Word());
    CiAtSlice(text, i, m, m - |x.Word()|, x.Word());
  }

  /** The converse of `ShapeOfSlice`. */
  lemma SliceOfShape(text: string, i: nat, m: nat, s: Scheme, x: Extension)
    requires i <= m <= |text| && HasShape(text[i..m], s, x)
    ensures i + |s.Word()| + 2 + |x.Word()| <= m
    ensures CiAt(text, i, s.Word())
    ensures text[m - |x.Word()| - 1] == '.' && CiAt(text, m - |x.Word()|, x.Word())
  {
    CiAtSlice(text, i, m, i, s.Word());
    CiAtSlice(text, i, m, m - |x.Word()|, x.Word());
    assert text[i..m][m - i - |x.Word()| - 1] == text[m - |x.Word()| - 1];
  }

  /** The run before `RunEnd` is whitespace-free. */
  lemma {:induction false} RunEndNoSpace(text: string, p: nat, j: nat)
    requires p <= j && p <= |text| && j < RunEnd(text, p)
    ensures !IsSpace(text[j])
    decreases |text| - p
  {
    if j > p {
      RunEndNoSpace(text, p + 1, j);
    }
  }

  /** A whitespace-free stretch from `p` lies inside the run from `p`. */
  lemma RunEndCovers(text: string, i: nat, p: nat, e': nat)
    requires i <= p <= e' <= |text|
    requires forall j | i <= j < e' :: !IsSpace(text[j])
    ensures e' <= RunEnd(text, p)
  {
  }

  /** Backtracking stops at the last index where `\.` and an extension match:
      any such index in range is found, or a later one. */
  lemma {:induction false} LastDotExtensionFinds(text: string, lo: nat, hi: nat, j: nat)
    requires lo <= j < hi && DotExtensionAt(text, j).Some?
    ensures LastDotExtension(text, lo, hi).Some? && j <= LastDotExtension(text, lo, hi).value
    decreases hi
  {
    if DotExtensionAt(text, hi - 1).None? {
      LastDotExtensionFinds(text, lo, hi - 1, j);
    }
  }

  // ---------------------------------------------------------------------------
  // One match: the engine finds the longest image URL at a position
  // ---------------------------------------------------------------------------

  /** `MatchAt` after a scheme has matched. */
  lemma MatchAtScheme(text: string, i: nat, s: Scheme, p: nat)
    requires i <= |text| && SchemeAt(text, i) == Some(s) && p == i + |s.Word()|
    ensures p <= |text| && MatchAt(text, i) == MatchAfterScheme(text, p)
  {
  }

  /** The pieces of a match at `i`: the scheme `s`, a dot at `q` inside the
      whitespace-free run after the scheme, and the extension `x` after it. */
  ghost predicate MatchPieces(text: string, i: nat, s: Scheme, q: nat, x: Extension) {
    && CiAt(text, i, s.Word())
    && i + |s.Word()| + 1 <= q < RunEnd(text, i + |s.Word()|)
    && DotExtensionAt(text, q) == Some(x)
  }

  /** The engine's match at `i` is made of such pieces. */
  lemma MatchParts(text: string, i: nat) returns (s: Scheme, q: nat, x: Extension)
    requires i <= |text| && MatchAt(text, i).Some?
    ensures MatchPieces(text, i, s, q, x)
    ensures MatchAt(text, i) == Some(q + 1 + |x.Word()|)
  {
    var p;
    s, p := SchemeOfMatch(text, i);
    AfterSchemeFound(text, p);
    q, x := AfterSchemeParts(text, p);
  }

  /** A match at `i` begins with the scheme the engine picks there. */
  lemma SchemeOfMatch(text: string, i: nat) returns (s: Scheme, p: nat)
    requires i <= |text| && MatchAt(text, i).Some?
    ensures SchemeAt(text, i) == Some(s) && p == i + |s.Word()| && p <= |text|
    ensures MatchAt(text, i) == MatchAfterScheme(text, p) && MatchAfterScheme(text, p).Some?
  {
    s := SchemeAt(text, i).value;
    p := i + |s.Word()|;
    MatchAtScheme(text, i, s, p);
  }

  /** No character matched against a word of the pattern is whitespace. */
  lemma WordNoSpace(text: string, i: nat, w: string)
    requires CiAt(text, i, w) && forall k | 0 <= k < |w| :: PatternChar(w[k])
    ensures forall j | i <= j < i + |w| :: !IsSpace(text[j])
  {
    forall j | i <= j < i + |w| ensures !IsSpace(text[j]) {
      MatchedCharNotSpace(text, i, w, j);
    }
  }

  /** The characters a match covers are not whitespace. */
  lemma PiecesNoSpace(text: string, i: nat, s: Scheme, q: nat, x: Extension, m: nat)
    requires MatchPieces(text, i, s, q, x) && m == q + 1 + |x.Word()|
    ensures forall j | i <= j < m :: !IsSpace(text[j])
  {
    var p := i + |s.Word()|;
    SchemeChars(s);
    ExtensionChars(x);
    WordNoSpace(text, i, s.Word());
    WordNoSpace(text, q + 1, x.Word());
    forall j | p <= j <= q ensures !IsSpace(text[j]) {
      RunEndNoSpace(text, p, j);
    }
  }

  /** Scheme, run and extension put together form an image URL. */
  lemma UrlOfParts(text: string, i: nat, s: Scheme, q: nat, x: Extension, m: nat)
    requires MatchPieces(text, i, s, q, x) && m == q + 1 + |x.Word()|
    ensures IsImageUrl(text[i..m])
  {
    PiecesNoSpace(text, i, s, q, x, m);
    NoSpaceSlice(text, i, m);
    ShapeOfSlice(text, i, m, s, x);
  }

  /** What the engine matches at `i` is an image URL. */
  lemma MatchAtIsImageUrl(text: string, i: nat)
    requires i <= |text| && MatchAt(text, i).Some?
    ensures IsImageUrl(text[i..MatchAt(text, i).value])
  {
    var s, q, x := MatchParts(text, i);
    UrlOfParts(text, i, s, q, x, MatchAt(text, i).value);
  }

  /** The pieces of an image URL `text[i..e']`. */
  lemma UrlParts(text: string, i: nat, e': nat) returns (s: Scheme, x: Extension)
    requires i <= e' <= |text| && IsImageUrl(text[i..e'])
    ensures i + |s.Word()| + 2 + |x.Word()| <= e'
    ensures CiAt(text, i, s.Word())
    ensures text[e' - |x.Word()| - 1] == '.' && CiAt(text, e' - |x.Word()|, x.Word())
    ensures forall j | i <= j < e' :: !IsSpace(text[j])
  {
    s, x :| HasShape(text[i..e'], s, x);
    SliceOfShape(text, i, e', s, x);
    NoSpaceSlice(text, i, e');
  }

  /** The rest of the match succeeds only when backtracking finds a dot. */
  lemma AfterSchemeFound(text: string, p: nat)
    requires p <= |text| && MatchAfterScheme(text, p).Some?
    ensures LastDotExtension(text, p + 1, RunEnd(text, p) + 1).Some?
  {
  }

  /** The pieces of the rest of the match once backtracking has found a dot. */
  lemma AfterSchemeParts(text: string, p: nat) returns (q: nat, x: Extension)
    requires p <= |text| && LastDotExtension(text, p + 1, RunEnd(text, p) + 1).Some?
    ensures MatchAfterScheme(text, p).Some?
    ensures q == LastDotExtension(text, p + 1, RunEnd(text, p) + 1).value
    ensures p + 1 <= q < RunEnd(text, p)
    ensures DotExtensionAt(text, q) == Some(x)
    ensures MatchAfterScheme(text, p) == Some(q + 1 + |x.Word()|)
  {
    q := LastDotExtension(text, p + 1, RunEnd(text, p) + 1).value;
    x := DotExtensionAt(text, q).value;
    assert !IsSpace(text[q]);
  }

  /** No dot sits inside a matched extension. */
  lemma NoDotInExtension(text: string, q': nat, x: Extension, q: nat)
    requires DotExtensionAt(text, q') == Some(x) && q' < q <= q' + |x.Word()|
    ensures DotExtensionAt(text, q).None?
  {
    ExtensionChars(x);
    MatchedCharNotSpace(text, q' + 1, x.Word(), q);
  }

  /** Backtracking from the end of the run from `p` finds a dot with an
      extension, at or after the one at `q'`. */
  lemma LastDotAtLeast(text: string, p: nat, q': nat) returns (q: nat, x: Extension)
    requires p + 1 <= q' && p <= |text| && q' < RunEnd(text, p) && DotExtensionAt(text, q').Some?
    ensures q' <= q && DotExtensionAt(text, q) == Some(x)
    ensures MatchAfterScheme(text, p) == Some(q + 1 + |x.Word()|)
  {
    LastDotExtensionFinds(text, p + 1, RunEnd(text, p) + 1, q');
    q, x := AfterSchemeParts(text, p);
  }

  /** Once the pieces of a match start at `i`, the rest of the match after
      the scheme succeeds, and reaches at least past their extension:
      backtracking stops at the last dot with an extension, and a later dot
      cannot sit inside this extension. */
  lemma AfterSchemeReaches(text: string, i: nat, s: Scheme, p: nat, q': nat, x: Extension, e': nat)
    requires MatchPieces(text, i, s, q', x) && p == i + |s.Word()| && e' == q' + 1 + |x.Word()|
    ensures p <= |text| && MatchAfterScheme(text, p).Some? && e' <= MatchAfterScheme(text, p).value
  {
    var q, xq := LastDotAtLeast(text, p, q');
    if q' < q && q <= q' + |x.Word()| {
      NoDotInExtension(text, q', x, q);
      assert false;
    }
    if q == q' {
      assert xq == x;
    }
  }

  /** An image URL `text[i..e']` is made of the pieces of a match, and the
      engine picks its scheme. */
  lemma PiecesOfUrl(text: string, i: nat, e': nat) returns (s: Scheme, q': nat, x: Extension)
    requires i <= e' <= |text| && IsImageUrl(text[i..e'])
    ensures MatchPieces(text, i, s, q', x) && e' == q' + 1 + |x.Word()|
    ensures SchemeAt(text, i) == Some(s)
  {
    s, x := UrlParts(text, i, e');
    SchemeUnique(text, i, s);
    q' := PiecesOfShape(text, i, e', s, x);
  }

  /** The dot of a whitespace-free stretch of the shape of an image URL. */
  lemma PiecesOfShape(text: string, i: nat, e': nat, s: Scheme, x: Extension) returns (q': nat)
    requires i + |s.Word()| + 2 + |x.Word()| <= e' <= |text|
    requires CiAt(text, i, s.Word())
    requires text[e' - |x.Word()| - 1] == '.' && CiAt(text, e' - |x.Word()|, x.Word())
    requires forall j | i <= j < e' :: !IsSpace(text[j])
    ensures MatchPieces(text, i, s, q', x) && e' == q' + 1 + |x.Word()|
  {
    q' := e' - |x.Word()| - 1;
    DotExtensionUnique(text, q', x);
    RunEndCovers(text, i, i + |s.Word()|, e');
  }

  /** Every image URL that starts at `i` is matched by the engine, and the
      engine's match is at least as long. */
  lemma MatchAtIsLongest(text: string, i: nat, e': nat)
    requires i <= e' <= |text| && IsImageUrl(text[i..e'])
    ensures MatchAt(text, i).Some? && e' <= MatchAt(text, i).value
  {
    var s, q', x := PiecesOfUrl(text, i, e');
    var p := i + |s.Word()|;
    MatchAtScheme(text, i, s, p);
    AfterSchemeReaches(text, i, s, p, q', x, e');
  }

  /** The engine's match at `i` is the longest image URL starting there, and
      it finds none exactly when none starts there. */
  lemma MatchAtSpec(text: string, i: nat)
    requires i <= |text|
    ensures MatchAt(text, i).Some? ==> LongestAt(text, Span(i, MatchAt(text, i).value))
    ensures MatchAt(text, i).None? <==> NoUrlAt(text, i)
  {
    if MatchAt(text, i).Some? {
      MatchAtIsImageUrl(text, i);
      forall e | i <= e <= |text| && IsImageUrl(text[i..e])
        ensures e <= MatchAt(text, i).value
      {
        MatchAtIsLongest(text, i, e);
      }
    } else {
      forall e | i <= e <= |text| ensures !IsImageUrl(text[i..e]) {
        if IsImageUrl(text[i..e]) {
          MatchAtIsLongest(text, i, e);
        }
      }
    }
  }

  // ---------------------------------------------------------------------------
  // The global match
  // ---------------------------------------------------------------------------

  /** One step of `Scan`. */
  lemma ScanStep(text: string, i: nat)
    requires i < |text|
    ensures MatchAt(text, i).Some? ==>
              Scan(text, i) == [Span(i, MatchAt(text, i).value)] + Scan(text, MatchAt(text, i).value)
    ensures MatchAt(text, i).None? ==> Scan(text, i) == Scan(text, i + 1)
  {
  }

  /** A longest image URL at `i`, followed by a decomposition from its end. */
  lemma LeftmostLongestCons(text: string, i: nat, e: nat, rest: seq<Span>)
    requires LongestAt(text, Span(i, e)) && LeftmostLongest(text, e, rest)
    ensures LeftmostLongest(text, i, [Span(i, e)] + rest)
  {
    assert ([Span(i, e)] + rest)[1..] == rest;
  }

  /** A position where no image URL starts can be skipped. */
  lemma LeftmostLongestSkip(text: string, i: nat, spans: seq<Span>)
    requires i < |text| && NoUrlAt(text, i) && LeftmostLongest(text, i + 1, spans)
    ensures LeftmostLongest(text, i, spans)
  {
  }

  /** The engine's global match is the leftmost-longest decomposition. */
  lemma {:induction false} ScanIsLeftmostLongest(text: string, i: nat)
    requires i <= |text|
    ensures LeftmostLongest(text, i, Scan(text, i))
    decreases |text| - i
  {
    if i < |text| {
      MatchAtSpec(text, i);
      ScanStep(text, i);
      if MatchAt(text, i).Some? {
        var e := MatchAt(text, i).value;
        ScanIsLeftmostLongest(text, e);
        LeftmostLongestCons(text, i, e, Scan(text, e));
      } else {
        ScanIsLeftmostLongest(text, i + 1);
        LeftmostLongestSkip(text, i, Scan(text, i + 1));
      }
    }
  }

  /** An image URL is never empty, so the longest one at a position
      starts inside the text, and some image URL starts there. */
  lemma LongestAtStart(text: string, sp: Span)
    requires LongestAt(text, sp)
    ensures sp.start < |text| && !NoUrlAt(text, sp.start)
  {
  }

  /** Two longest image URLs at the same position are the same span. */
  lemma LongestAtUnique(text: string, a: Span, b: Span)
    requires LongestAt(text, a) && LongestAt(text, b) && a.start == b.start
    ensures a == b
  {
    assert a.end <= b.end && b.end <= a.end;
  }

  /** Two leftmost-longest decompositions from `i` are both empty, or start
      with the same span and continue with decompositions from its end. */
  lemma LeftmostLongestHeads(text: string, i: nat, a: seq<Span>, b: seq<Span>)
    requires LeftmostLongest(text, i, a) && LeftmostLongest(text, i, b)
    ensures a == [] <==> b == []
    ensures a != [] ==>
              && b != [] && a[0] == b[0]
              && LeftmostLongest(text, a[0].end, a[1..]) && LeftmostLongest(text, a[0].end, b[1..])
  {
    if a != [] {
      LongestAtStart(text, a[0]);
    }
    if b != [] {
      LongestAtStart(text, b[0]);
    }
    if a != [] && b != [] {
      assert a[0].start == b[0].start;
      LongestAtUnique(text, a[0], b[0]);
    }
  }

  /** There is only one leftmost-longest decomposition from `i`. */
  lemma {:induction false} LeftmostLongestUnique(text: string, i: nat, a: seq<Span>, b: seq<Span>)
    requires LeftmostLongest(text, i, a) && LeftmostLongest(text, i, b)
    ensures a == b
    decreases |a|
  {
    LeftmostLongestHeads(text, i, a, b);
    if a != [] {
      LeftmostLongestUnique(text, a[0].end, a[1..], b[1..]);
      assert a == [a[0]] + a[1..] && b == [b[0]] + b[1..];
    }
  }

  /** The global match from `i` is exactly the leftmost-longest decomposition. */
  lemma ScanCharacterized(text: string, i: nat, spans: seq<Span>)
    requires i <= |text|
    ensures LeftmostLongest(text, i, spans) <==> spans == Scan(text, i)
  {
    ScanIsLeftmostLongest(text, i);
    if LeftmostLongest(text, i, spans) {
      LeftmostLongestUnique(text, i, spans, Scan(text, i));
    }
  }

  /** Every span of a leftmost-longest decomposition delimits an image URL
      of the text. */
  lemma {:induction false} LeftmostLongestSpans(text: string, i: nat, spans: seq<Span>)
    requires LeftmostLongest(text, i, spans)
    ensures forall k | 0 <= k < |spans| ::
              spans[k].start <= spans[k].end <= |text| && IsImageUrl(text[spans[k].start..spans[k].end])
    decreases |spans|
  {
    if spans != [] {
      LeftmostLongestSpans(text, spans[0].end, spans[1..]);
      forall k | 1 <= k < |spans|
        ensures spans[k].start <= spans[k].end <= |text| && IsImageUrl(text[spans[k].start..spans[k].end])
      {
        assert spans[k] == spans[1..][k - 1];
      }
    }
  }

  /** A leftmost-longest decomposition is empty exactly when no image URL
      occurs anywhere from `i` on. */
  lemma LeftmostLongestEmpty(text: string, i: nat, spans: seq<Span>)
    requires LeftmostLongest(text, i, spans)
    ensures spans == [] <==> forall j, e | i <= j <= e <= |text| :: !IsImageUrl(text[j..e])
  {
    if spans == [] {
      forall j, e | i <= j <= e <= |text| ensures !IsImageUrl(text[j..e]) {
        if j < |text| {
          assert NoUrlAt(text, j);
        }
      }
    }
  }

  /** Each delimited substring occurs in the text, at the start of its span. */
  lemma SubstringsOccur(text: string, spans: seq<Span>)
    requires forall k | 0 <= k < |spans| :: spans[k].start <= spans[k].end <= |text|
    ensures forall k | 0 <= k < |spans| :: Contains(text, Substrings(text, spans)[k])
  {
    var subs := Substrings(text, spans);
    forall k | 0 <= k < |spans| ensures Contains(text, subs[k]) {
      assert OccursAt(text, subs[k], spans[k].start);
    }
  }

  /** Where the results of `extractImages` sit in the text: the i-th result
      is the i-th span of the leftmost-longest decomposition, so the results
      come in text order and never overlap. */
  lemma ExtractImagesSpans(text: string) returns (spans: seq<Span>)
    ensures LeftmostLongest(text, 0, spans)
    ensures |ExtractImages(text)| == |spans|
    ensures forall k | 0 <= k < |spans| ::
              spans[k].start < spans[k].end <= |text| && ExtractImages(text)[k] == text[spans[k].start..spans[k].end]
    ensures forall k | 0 <= k < |spans| - 1 :: spans[k].end <= spans[k + 1].start
  {
    spans := Scan(text, 0);
    ScanIsLeftmostLongest(text, 0);
  }
}

=== FILE: js_text.dfy ===
/** The pieces of JavaScript's string semantics the chat widget relies on:
    the whitespace class shared by `\s` and `String.prototype.trim`, `trim`
    itself, ASCII case folding as used by a case-insensitive regular
    expression, and the decimal rendering of a non-negative integer. */
module JsText {

  /** The characters JavaScript counts as whitespace (WhiteSpace and
      LineTerminator of ECMAScript): both `\s` in a regular expression and
      `String.prototype.trim` use exactly this set. */
  predicate IsSpace(c: char) {
    var n := c as int;
    || (0x09 <= n <= 0x0D)      // tab, line feed, vertical tab, form feed, carriage return
    || n == 0x20 || n == 0xA0   // space, no-break space
    || n == 0x1680
    || (0x2000 <= n <= 0x200A)
    || n == 0x2028 || n == 0x2029
    || n == 0x202F || n == 0x205F || n == 0x3000
    || n == 0xFEFF
  }

  /** Every character of `s` is whitespace (so also the empty string). */
  ghost predicate IsBlank(s: string) {
    forall k | 0 <= k < |s| :: IsSpace(s[k])
  }

  /** No character of `s` is whitespace. */
  ghost predicate NoSpace(s: string) {
    forall k | 0 <= k < |s| :: !IsSpace(s[k])
  }

  /** `needle` occurs in `hay` starting at index `k`. */
  ghost predicate OccursAt(hay: string, needle: string, k: int) {
    0 <= k && k + |needle| <= |hay| && hay[k..k + |needle|] == needle
  }

  /** `needle` is a substring of `hay`. */
  ghost predicate Contains(hay: string, needle: string) {
    exists k :: OccursAt(hay, needle, k)
  }

  /** `r` is `s` with the blank prefix `s[..a]` and a blank suffix cut off. */
  ghost predicate TrimSplit(s: string, r: string, a: int) {
    OccursAt(s, r, a) && IsBlank(s[..a]) && IsBlank(s[a + |r|..])
  }

  /** `s` without its leading whitespace. */
  function TrimStart(s: string): (r: string)
    ensures |r| <= |s| && r == s[|s| - |r|..]
    ensures IsBlank(s[..|s| - |r|])
    ensures r == [] || !IsSpace(r[0])
  {
    if s != [] && IsSpace(s[0]) then
      var r := TrimStart(s[1..]);
      assert s[..|s| - |r|] == [s[0]] + s[1..][..|s| - 1 - |r|];
      r
    else s
  }

  /** `s` without its trailing whitespace. */
  function TrimEnd(s: string): (r: string)
    ensures |r| <= |s| && r == s[..|r|]
    ensures IsBlank(s[|r|..])
    ensures r == [] || !IsSpace(r[|r| - 1])
  {
    if s != [] && IsSpace(s[|s| - 1]) then
      var r := TrimEnd(s[..|s| - 1]);
      assert s[|r|..] == s[..|s| - 1][|r|..] + [s[|s| - 1]];
      r
    else s
  }

  /** `String.prototype.trim`: the result is what is left of `s` once the
      whitespace at both ends is cut off; it is empty exactly when `s` is
      blank. */
  function Trim(s: string): (r: string)
    ensures exists a :: TrimSplit(s, r, a)
    ensures r != [] ==> !IsSpace(r[0]) && !IsSpace(r[|r| - 1])
    ensures r == [] <==> IsBlank(s)
  {
    TrimParts(s);
    TrimEnd(TrimStart(s))
  }

  /** How the two halves of `Trim` fit together. */
  lemma TrimParts(s: string)
    ensures TrimSplit(s, TrimEnd(TrimStart(s)), |s| - |TrimStart(s)|)
    ensures TrimEnd(TrimStart(s)) == [] ==> IsBlank(s)
  {
    var t := TrimStart(s);
    var r := TrimEnd(t);
    var a := |s| - |t|;
    SliceFacts(s, t, r, a);
    TrimSplitOf(s, t, r, a);
    if r == [] {
      BlankSame(t, t[|r|..]);
      BlankConcat(s[..a], t);
    }
  }

  /** The blank parts cut off by `TrimStart` and `TrimEnd` around `r`. */
  lemma TrimSplitOf(s: string, t: string, r: string, a: nat)
    requires a <= |s| && t == s[a..] && IsBlank(s[..a])
    requires OccursAt(s, r, a) && s[a + |r|..] == t[|r|..] && IsBlank(t[|r|..])
    ensures TrimSplit(s, r, a)
  {
    BlankSame(s[a + |r|..], t[|r|..]);
  }

  /** Index bookkeeping behind `TrimParts`, kept free of whitespace facts. */
  lemma SliceFacts(s: string, t: string, r: string, a: nat)
    requires |t| <= |s| && a == |s| - |t| && t == s[a..]
    requires |r| <= |t| && r == t[..|r|]
    ensures OccursAt(s, r, a)
    ensures s[a + |r|..] == t[|r|..]
    ensures s == s[..a] + t
  {
  }

  /** Blankness carries over to an equal string. */
  lemma BlankSame(x: string, y: string)
    requires x == y && IsBlank(y)
    ensures IsBlank(x)
  {
  }

  /** An occurrence inside an occurrence is an occurrence: substrings of
      substrings are substrings. */
  lemma OccursWithin(a: string, b: string, c: string, i: int, j: int)
    requires OccursAt(a, b, i) && OccursAt(b, c, j)
    ensures OccursAt(a, c, i + j)
  {
    forall m | 0 <= m < |c| ensures a[i + j + m] == c[m] {
      assert c[m] == b[j + m] == a[i + j + m];
    }
  }

  /** Two blank strings joined are blank. */
  lemma BlankConcat(x: string, y: string)
    requires IsBlank(x) && IsBlank(y)
    ensures IsBlank(x + y)
  {
    forall k | 0 <= k < |x + y| ensures IsSpace((x + y)[k]) {
      if k < |x| { assert (x + y)[k] == x[k]; } else { assert (x + y)[k] == y[k - |x|]; }
    }
  }

  /** ASCII case folding used by a regular expression with the `i` flag:
      `c` matches the lower-case pattern character `w`. For the ASCII letters
      of a pattern, the only other character that folds onto them is their
      upper-case form. */
  predicate CiEq(c: char, w: char) {
    c == w || ('a' <= w <= 'z' && c as int == w as int - 32)
  }

  /** The decimal digit for `d`. */
  function Digit(d: nat): (c: char)
    requires d < 10
    ensures '0' <= c <= '9' && c as int - '0' as int == d
  {
    (('0' as int) + d) as char
  }

  /** `Number.prototype.toString()` of a non-negative integer below 2^53,
      such as a clock reading or an HTTP status: the shortest decimal
      numeral, without leading zeros. (JavaScript switches to exponent form
      from 10^21 on; the widget never renders numbers that large.) */
  function Decimal(n: nat): (r: string)
    ensures 1 <= |r|
    ensures forall k | 0 <= k < |r| :: '0' <= r[k] <= '9'
    ensures |r| > 1 ==> r[0] != '0'
  {
    if n < 10 then [Digit(n)] else Decimal(n / 10) + [Digit(n % 10)]
  }

  /** The value of a numeral of decimal digits. */
  function ParseDecimal(s: string): nat
    requires forall k | 0 <= k < |s| :: '0' <= s[k] <= '9'
  {
    if s == [] then 0
    else ParseDecimal(s[..|s| - 1]) * 10 + (s[|s| - 1] as int - '0' as int)
  }

  /** Rendering a number and reading it back gives the number: distinct
      numbers have distinct renderings. */
  lemma {:induction false} DecimalRoundTrip(n: nat)
    ensures ParseDecimal(Decimal(n)) == n
  {
    if n >= 10 {
      var r := Decimal(n);
      assert r[..|r| - 1] == Decimal(n / 10);
      DecimalRoundTrip(n / 10);
    }
  }
}

=== FILE: query_client.dfy ===
/** `sendQuery`: one POST of the request body to the agent service. The
    transport itself is not modelled; what the network and the service did is
    an input (`HttpReply`), and the function decides what the caller sees. */
module QueryClient {
  import opened Wrappers
  import opened JsText
  import opened ChatTypes

  /** A value thrown into the caller's `catch`: an `Error` object with its
      `message`, or any other thrown value. */
  datatype Thrown = ErrorObject(message: string) | NonError

  /** How a promise for a `QueryResponse` settles. */
  datatype Outcome = Ok(response: QueryResponse) | Err(thrown: Thrown)

  /** What came back over the wire: either `fetch` itself rejected, or a
      response arrived with an HTTP status and a body whose JSON decoding
      settled as `body`. */
  datatype HttpReply =
    | NetworkFailure(error: Thrown)
    | Received(status: nat, body: Outcome)

  /** `Response.ok`: the status is in the range 200-299. */
  predicate IsOkStatus(status: nat) {
    200 <= status <= 299
  }

  const StatusErrorPrefix: string := "HTTP error! status: "

  /** The message of the error thrown for a non-OK status. */
  function StatusError(status: nat): (msg: string)
    ensures |StatusErrorPrefix| < |msg| && msg[..|StatusErrorPrefix|] == StatusErrorPrefix
    ensures StatusOfError(msg) == Some(status)
    ensures |msg| > |StatusErrorPrefix| + 1 ==> msg[|StatusErrorPrefix|] != '0'
  {
    var msg := StatusErrorPrefix + Decimal(status);
    assert msg[..|StatusErrorPrefix|] == StatusErrorPrefix;
    assert msg[|StatusErrorPrefix|..] == Decimal(status);
    DecimalRoundTrip(status);
    msg
  }

  /** Reads the status back out of a status error message. */
  function StatusOfError(msg: string): Option<nat> {
    if |StatusErrorPrefix| <= |msg| && msg[..|StatusErrorPrefix|] == StatusErrorPrefix
       && forall k | |StatusErrorPrefix| <= k < |msg| :: '0' <= msg[k] <= '9'
    then Some(ParseDecimal(msg[|StatusErrorPrefix|..]))
    else None
  }

  /** `sendQuery`: a rejected `fetch` is passed on; a non-OK status becomes an
      `Error` carrying the status; otherwise the caller gets the decoded body. */
  function SendQuery(reply: HttpReply): (o: Outcome)
    ensures o.Ok? <==> reply.Received? && IsOkStatus(reply.status) && reply.body.Ok?
    ensures reply.Received? && IsOkStatus(reply.status) ==> o == reply.body
    ensures reply.Received? && !IsOkStatus(reply.status) ==>
              o == Err(ErrorObject(StatusError(reply.status)))
    ensures reply.NetworkFailure? ==> o == Err(reply.error)
  {
    match reply
    case NetworkFailure(e) => Err(e)
    case Received(status, body) =>
      if !IsOkStatus(status) then Err(ErrorObject(StatusError(status))) else body
  }

  /** The text of a caught error: its message, or `Unknown error` for a
      thrown value that is not an `Error`. */
  function Describe(t: Thrown): (text: string)
    ensures t.ErrorObject? ==> text == t.message
    ensures t.NonError? ==> text == "Unknown error"
  {
    match t
    case ErrorObject(m) => m
    case NonError => "Unknown error"
  }
}

=== FILE: scenarios.dfy ===
/** Two complete exchanges of the widget, from its initial state: one that
    succeeds and one that fails with HTTP status 500. */
module ChatScenarios {
  import opened Wrappers
  import opened JsText
  import opened ChatTypes
  import opened QueryClient
  import opened ChatWidget

  const SalesQuery: string := "Show me sales trends"

  const SalesResponse: QueryResponse :=
    QueryResponse(SalesQuery, "Here are trends", ["sales_tool"], None, "2024-03-19T00:00:00Z", None, "s1")

  /** Asking about sales from the initial state, with a service that answers
      200 with a response for session `s1`: the transcript then holds the
      welcome, the question and the answer, the session is `s1`, and the
      widget is idle again. */
  lemma SuccessScenario(now: nat)
    ensures var s := Edit(Initial(now), SalesQuery);
            var t := HandleSendMessage(s, now + 10, now + 20, _ => Received(200, Ok(SalesResponse)));
            && |t.messages| == 3
            && t.messages[1].kind == User && t.messages[1].content == SalesQuery
            && t.messages[2].kind == Ai && t.messages[2].content == "Here are trends"
            && t.messages[2].toolsUsed == Some(["sales_tool"])
            && t.sessionId == Some("s1")
            && !t.isLoading && t.inputValue == []
  {
    var s := Edit(Initial(now), SalesQuery);
    assert !IsSpace(s.inputValue[0]);
    var service: QueryRequest -> HttpReply := _ => Received(200, Ok(SalesResponse));
    ExchangeTranscript(s, now + 10, now + 20, service);
    ExchangeSession(s, now + 10, now + 20, service);
    var sub := Submit(s, now + 10);
    assert HandleSendMessage(s, now + 10, now + 20, service) == RecordSuccess(sub.state, now + 20, SalesResponse);
  }

  /** The status error for 500 ends with the numeral `500`. */
  lemma StatusErrorEnds500()
    ensures OccursAt(StatusError(500), "500", |StatusErrorPrefix|)
  {
    assert Decimal(500) == "500";
    assert StatusError(500)[|StatusErrorPrefix|..] == "500";
  }

  /** Sending `x` from the initial state to a service that answers 500: the
      transcript then holds three messages, the last of which mentions the
      status `500`; there is still no session and the widget is idle. */
  lemma FailureScenario(now: nat, body: Outcome)
    ensures var s := Edit(Initial(now), "x");
            var t := HandleSendMessage(s, now + 10, now + 20, _ => Received(500, body));
            && |t.messages| == 3
            && Contains(t.messages[2].content, "500")
            && t.sessionId.None?
            && !t.isLoading
  {
    var s := Edit(Initial(now), "x");
    assert !IsSpace(s.inputValue[0]);
    var service: QueryRequest -> HttpReply := _ => Received(500, body);
    StatusFailureNamesStatus(s, now + 10, now + 20, service, 500);
    var t := HandleSendMessage(s, now + 10, now + 20, service);
    var k :| OccursAt(t.messages[2].content, StatusError(500), k);
    StatusErrorEnds500();
    OccursWithin(t.messages[2].content, StatusError(500), "500", k, |StatusErrorPrefix|);
  }
}

/** A worked example of `extractImages`. */
module ImageScenarios {
  import opened Wrappers
  import opened ImageExtraction

  const PunctuatedUrl: string := "https://x.co/b.PNG!"

  /** The whitespace-free run after the scheme reaches the end of the text. */
  lemma PunctuatedRun()
    ensures RunEnd(PunctuatedUrl, 8) == 19
  {
  }

  /** Backing off from the end of the run stops at the `.` before `PNG`. */
  lemma PunctuatedBackoff()
    ensures LastDotExtension(PunctuatedUrl, 9, 20) == Some(14)
  {
    assert DotExtensionAt(PunctuatedUrl, 14) == Some(Png);
  }

  /** `https://` matches at the start, one character after another. */
  lemma PunctuatedScheme()
    ensures SchemeAt(PunctuatedUrl, 0) == Some(Https)
  {
    var t, w := PunctuatedUrl, Https.Word();
    assert CiFrom(t, 0, w, 7);
    assert CiFrom(t, 0, w, 5);
    assert CiFrom(t, 0, w, 3);
    assert CiFrom(t, 0, w, 1);
    assert CiFrom(t, 0, w, 0);
  }

  /** The first match starts at the scheme and ends after `PNG`. */
  lemma PunctuatedFirstMatch()
    ensures MatchAt(PunctuatedUrl, 0) == Some(18)
  {
    PunctuatedRun();
    PunctuatedBackoff();
    PunctuatedScheme();
    assert MatchAfterScheme(PunctuatedUrl, 8) == Some(18);
  }

  /** Nothing matches at the `!`: no scheme fits in what is left. */
  lemma PunctuatedNoSecondMatch()
    ensures MatchAt(PunctuatedUrl, 18) == None
  {
    assert SchemeAt(PunctuatedUrl, 18) == None;
  }

  /** The global match finds exactly the one span. */
  lemma PunctuatedScan()
    ensures Scan(PunctuatedUrl, 0) == [Span(0, 18)]
  {
    PunctuatedFirstMatch();
    PunctuatedNoSecondMatch();
    assert Scan(PunctuatedUrl, 18) == [];
  }

  /** A trailing `!` is not part of the match: the engine backs off from the
      end of the whitespace-free run to the last `.png`, whatever its case. */
  lemma TrailingPunctuationDropped()
    ensures ExtractImages(PunctuatedUrl) == ["https://x.co/b.PNG"]
  {
    PunctuatedScan();
    assert PunctuatedUrl[0..18] == "https://x.co/b.PNG";
  }
}

=== FILE: wrappers.dfy ===
/** The optional value used wherever the TypeScript code has an optional
    property (`x?: T`) or `undefined`. */
module Wrappers {

  datatype Option<+T> = None | Some(value: T)
}
